=== FILE: README.md ===
# Quicks widget: chat threads, launcher and to-do row, modelled in Dafny

The Quicks widget is a floating button on a web page. It expands into two
panels, a chat inbox and a to-do list. Its logic consists of small list and
record transformations inside React event handlers, plus one state machine for
the launcher. This project lifts that logic out as pure functions over
immutable values and proves what the handlers promise.

- `wrappers.dfy`: `Option`, the stand-in for `null` / `undefined`.
- `js_string.dfy` (`JsString`): the JavaScript string built-ins the handlers
  use. These are `trim` (over the ECMAScript whitespace and line-terminator
  set), ASCII `toLowerCase`, and `includes`.
- `text_config.dfy` (`TextConfig`): the `truncate` helper.
- `chat_thread.dfy` (`ChatThread`): the message record and the thread
  operations: append an own message with id `length + 1`, delete by id, and
  edit by id. Also the id facts (ids stay `1..n` under appends; a delete
  followed by a send can reuse an id) and the six-message seed thread that two
  pages start from.
- `sender_kind.dfy` (`SenderKind`): the four-way dispatch on the sender string
  ("You", "Date", "New", anyone else), as a tagged variant that loses nothing.
- `composer.dfy` (`Composer`): the input box, the empty-message error and edit
  mode, shared by the support and group chat pages. Send adds a message
  outside edit mode and updates one inside it.
- `support_chat.dfy` (`SupportChat`): the support page. It adds the scheduled
  automatic reply and the "please wait" banner.
- `multiple_user_chat.dfy` (`MultipleUserChat`): the group page. It adds the
  `isAtBottom` / `hasNewMessage` flags and the jump-to-new-message button.
- `chat_inbox.dfy` (`ChatInbox`): the inbox page. It covers the posts/users
  join, the keyword search, and the page's append-only thread.
- `launcher.dfy` (`Launcher`): the home route's launcher. Each click handler is
  a batch of state-setter calls applied in order, so the last write to each
  variable wins.
- `todo_item.dfy` (`TodoItem`): the to-do row. It covers the guarded title and
  description commits, the checkbox, date selection, delete, and the
  days-left badge.

Timers are explicit events here. The support reply is a `ReplyFired` event
that can only occur while a reply is pending. The debounced commits of the
to-do row are the `TitleSettled` / `DescSettled` actions. Each fires at most
once after the last change of its field, and it commits against the to-do that
was current at that change. Clock readings are parameters: the formatted `time`
strings, the `Date.now()` id of the support reply, and the `now` of the inbox
timestamps. So are the date-library results (`daysLeft`, `isFuture`).

The inbox page's search box and conversation list are commented out in the
page's markup. The handlers `handleSearch` and `combined` still exist, and they
are modelled as written. `TodoItem` is not mounted by the to-do panel
(`app/components/pages/TodoComponents.tsx`), and its handlers are modelled on
their own.

## Model

| member | source | states |
|---|---|---|
| JsString.TrimStart | app/components/pages/chat/SupportChat.tsx:27 | the start-trimmed string is a suffix of the input, everything cut is whitespace, and it does not start with whitespace |
| JsString.TrimEnd | app/components/pages/chat/SupportChat.tsx:27 | the end-trimmed string is a prefix of the input, everything cut is whitespace, and it does not end with whitespace |
| JsString.ToLower | app/components/pages/ChatComponents.tsx:81 | lower-casing keeps the length and maps each character on its own, turning exactly the ASCII capitals into small letters |
| JsString.Trim | app/components/pages/chat/SupportChat.tsx:27 | `trim` gives a slice of the input with only whitespace before and after it, which neither starts nor ends with whitespace |
| JsString.BlankIffAllWhitespace | app/components/pages/chat/SupportChat.tsx:27 | `!s.trim()` (`IsBlank`) rejects an input exactly when every character of it is whitespace |
| JsString.IncludesIffOccurs | app/components/pages/ChatComponents.tsx:89-91 | `includes` is true exactly when the needle occurs at some position of the haystack |
| TextConfig.Truncate | app/helpers/textConfig.ts:1-6 | empty text gives `undefined`; non-empty text within the limit is returned unchanged; longer text gives the first `max` characters (clamped at 0) followed by "..."; for `max >= 0` the result is at most `max + 3` long |
| TextConfig.TruncateFixpointIff | app/helpers/textConfig.ts:2-4 | the text comes back unchanged iff it is non-empty and within the limit, or it is already its own truncation (`max` kept characters followed by "...") |
| ChatThread.Append | app/components/pages/chat/MultipleUserChat.tsx:108-118 | the send appends exactly one message (sender "You", the input as text, id old length + 1, empty colours) and keeps every earlier message in place |
| ChatThread.Delete | app/components/pages/chat/MultipleUserChat.tsx:128-131 | delete keeps exactly the messages whose id differs, in their original order. Its length drops by the number of matches, and an absent id changes nothing |
| ChatThread.DeleteIdempotent | app/components/pages/chat/SupportChat.tsx:66-69 | deleting the same id twice is deleting it once |
| ChatThread.Update | app/components/pages/chat/MultipleUserChat.tsx:133-136 | edit keeps the length and every message's id, sender and colours. Matching messages get the new text and time, and the others stay identical |
| ChatThread.UpdateIdempotent | app/components/pages/chat/SupportChat.tsx:71-74 | applying the same edit again changes nothing |
| ChatThread.DeleteAfterUpdate | app/components/pages/chat/SupportChat.tsx:66-74 | deleting an id after editing it leaves exactly the thread that deleting it without the edit leaves |
| ChatThread.AppendKeepsSequentialIds | app/components/pages/ChatComponents.tsx:154-163 | appending to a thread numbered 1..n gives a thread numbered 1..n+1, so its ids are unique |
| ChatThread.DeleteThenAppendDuplicatesId | app/components/pages/chat/MultipleUserChat.tsx:108-131 | deleting message 1 from a thread numbered 1..n (n >= 2) and then sending produces two messages with id n, so id uniqueness is not kept |
| ChatThread.Seed | app/components/pages/chat/MultipleUserChat.tsx:17-66 | the group and inbox pages start from six messages numbered 1..6 |
| SenderKind.Classify | app/components/pages/chat/MultipleUserChat.tsx:165-192 | every sender string gets a kind whose sender string is the original one, and `Other` never carries "You", "Date" or "New" |
| SenderKind.ClassifySenderOf | app/components/pages/ChatComponents.tsx:257-273 | every kind a sender can have is recovered by classifying its sender string (round trip) |
| SenderKind.ClassifyCases | app/components/pages/chat/MultipleUserChat.tsx:166-182 | "You" is own, "Date" a plain separator, "New" a new-message separator, everything else another sender; each case iff its condition |
| SenderKind.SupportClassify | app/components/pages/chat/SupportChat.tsx:102-125 | the support page draws an own bubble exactly for "You", and every other sender, "Date" and "New" included, as another sender |
| Composer.Type | app/components/pages/chat/SupportChat.tsx:181-184 | typing stores the value and clears the pending empty-message error, and nothing else changes |
| Composer.Send | app/components/pages/chat/SupportChat.tsx:26-43 | blank input leaves the thread unchanged and sets "Please enter a message"; other input is appended as an own message and the input is cleared |
| Composer.BeginEdit | app/components/pages/chat/SupportChat.tsx:108-112 | the `onClickEdit` callback loads the message text into the input, turns edit mode on and records the message id |
| Composer.CommitEdit | app/components/pages/chat/SupportChat.tsx:71-79 | commit rewrites the recorded id's messages with the input, with no blank check, and always leaves edit mode with id and input cleared |
| Composer.Remove | app/components/pages/chat/SupportChat.tsx:113 | the `onClickDelete` callback filters the thread by id and leaves the input and edit mode alone |
| Composer.Submit | app/components/pages/chat/SupportChat.tsx:186-193 | Send/Enter routes to the edit commit in edit mode and to the add otherwise |
| Composer.StepKeepsValid | app/components/pages/chat/MultipleUserChat.tsx:171-175 | no user action can put edit mode on without a recorded id |
| Composer.RunKeepsValid | app/components/pages/chat/SupportChat.tsx:108-112 | after any sequence of user actions, edit mode implies a recorded id |
| Composer.SubmitLength | app/components/pages/chat/MultipleUserChat.tsx:235-242 | a submit grows the thread by one exactly when it is not in edit mode and the input is not blank |
| SupportChat.AddMessage | app/components/pages/chat/SupportChat.tsx:26-63 | the support send does the shared send. When it succeeds, a reply is scheduled and the banner shown iff the thread had fewer than 2 messages before, and the banner is hidden otherwise |
| SupportChat.Initial | app/components/pages/chat/SupportChat.tsx:11-24 | the page opens with the one support welcome message (id 1), nothing typed, no error, no edit, no banner and no reply due |
| SupportChat.Reply | app/components/pages/chat/SupportChat.tsx:48-60 | a fired reply appends one "FastVisa Support" message "What can I help you with?" (id = clock, the given time, support colours) to the current thread, clears the banner, and leaves input, error and edit state alone |
| SupportChat.Submit | app/components/pages/chat/SupportChat.tsx:202-209 | the Send button commits the edit in edit mode (no reply scheduled) and runs the support send otherwise |
| SupportChat.StepKeepsValid | app/components/pages/chat/SupportChat.tsx:45-63 | no event shows the banner without a pending reply, or turns on edit mode without an id |
| SupportChat.ReachableValid | app/components/pages/chat/SupportChat.tsx:13-24 | from the initial page, every reachable state shows the banner only with a reply pending, and edit mode only with an id |
| SupportChat.TypeThenSend | app/components/pages/chat/SupportChat.tsx:26-47 | from any state outside edit mode, typing a non-blank message and sending it appends one message, and schedules a reply and shows the banner iff the thread held fewer than two messages |
| SupportChat.FirstSendSchedulesReply | app/components/pages/chat/SupportChat.tsx:45-47 | the first message into the fresh thread shows the banner and schedules exactly one reply |
| SupportChat.SecondSendHidesBannerEarly | app/components/pages/chat/SupportChat.tsx:45-63 | a second send before the reply schedules nothing and hides the banner while the reply is still due; the reply then lands fourth |
| MultipleUserChat.Initial | app/components/pages/chat/MultipleUserChat.tsx:17-81 | the mounted page holds the seed thread with nothing typed and no edit, is not at the bottom, and has the flag up iff the seed holds a "New" separator |
| MultipleUserChat.NewMarkers | app/components/pages/chat/MultipleUserChat.tsx:76 | the filtered list of "New" messages is non-empty iff some message has sender "New" |
| MultipleUserChat.HasNewOnMount | app/components/pages/chat/MultipleUserChat.tsx:76-81 | on mount `hasNewMessage` is set iff the thread holds a "New" separator |
| MultipleUserChat.AtBottom | app/components/pages/chat/MultipleUserChat.tsx:72 | the view is at the bottom iff at most 100 pixels remain below it |
| MultipleUserChat.Scrolled | app/components/pages/chat/MultipleUserChat.tsx:69-100 | a scroll sets `isAtBottom` from the position and clears `hasNewMessage` when `isAtBottom` turns true, and otherwise keeps it |
| MultipleUserChat.ClickNewMessageButton | app/components/pages/chat/MultipleUserChat.tsx:194-206 | clicking the jump button clears `hasNewMessage`, so the button (shown iff `hasNewMessage && !isAtBottom`) disappears |
| MultipleUserChat.StepKeepsValid | app/components/pages/chat/MultipleUserChat.tsx:96-100 | no event leaves `hasNewMessage` up while at the bottom, or turns on edit mode without an id |
| MultipleUserChat.InitialShowsButton | app/components/pages/chat/MultipleUserChat.tsx:76-81 | the page opens valid and with the jump button showing, because the seed has a "New" separator |
| MultipleUserChat.FlagNeverReturns | app/components/pages/chat/MultipleUserChat.tsx:94-100 | once cleared, `hasNewMessage` stays false for every later event sequence |
| MultipleUserChat.ReachableValid | app/components/pages/chat/MultipleUserChat.tsx:13-100 | from the mounted page, after any event sequence the flag is down at the bottom and edit mode has an id; a jump button (line 194) showing now has shown after every prefix of the events since mount |
| MultipleUserChat.ButtonNeverReturns | app/components/pages/chat/MultipleUserChat.tsx:194 | the jump button, shown iff `hasNewMessage && !isAtBottom`, never reappears once hidden in a valid state |
| MultipleUserChat.ShownAfterPrefix | app/components/pages/chat/MultipleUserChat.tsx:94-100 | from any valid state, a jump button showing after a run of events was showing after every prefix of that run, so the button's visible period is one unbroken stretch |
| MultipleUserChat.SeedDeleteThenSendDuplicates | app/components/pages/chat/MultipleUserChat.tsx:109 | on this page, the `onClickDelete` handler for message 1 followed by a send gives the new message id 6, which message 6 already carries |
| ChatInbox.FindUser | app/components/pages/ChatComponents.tsx:56 | `find` returns the first user with the post's id, and nothing exactly when no user has it |
| ChatInbox.SenderName | app/components/pages/ChatComponents.tsx:61 | the sender is the found user's name, or "Unknown Sender" when there is no user or the name is empty |
| ChatInbox.Combine | app/components/pages/ChatComponents.tsx:55-64 | one entry per post in post order, with the post's id, title and body, the author's name (or the fallback), and a time one hour earlier per position |
| ChatInbox.CombineUnknownAuthor | app/components/pages/ChatComponents.tsx:56-61 | a post whose author is not in the user list is shown as sent by "Unknown Sender" |
| ChatInbox.FilterByTitle | app/components/pages/ChatComponents.tsx:89-91 | the filter keeps, in order, exactly the entries whose lower-cased title contains the keyword, one copy per matching position |
| ChatInbox.Search | app/components/pages/ChatComponents.tsx:79-95 | an empty keyword restores the full list; a non-empty one gives the in-order sublist whose lower-cased titles contain the lower-cased keyword, with every matching position kept |
| ChatInbox.SearchIgnoresKeywordCase | app/components/pages/ChatComponents.tsx:81 | searching with the lower-cased keyword gives the same result as with the keyword as typed |
| ChatInbox.SearchFindsOccurrences | app/components/pages/ChatComponents.tsx:79-91 | for every keyword, empty included, a listed entry is found iff the lower-cased keyword occurs at some position of its lower-cased title |
| ChatInbox.RunOnlyAppends | app/components/pages/ChatComponents.tsx:148-165 | on the inbox page the thread only grows and every message keeps its place |
| ChatInbox.RunKeepsSequentialIds | app/components/pages/ChatComponents.tsx:154-163 | typing and sending keep a thread numbered 1..n numbered 1..n (hence with unique ids) |
| ChatInbox.ReachableIds | app/components/pages/ChatComponents.tsx:97-146 | every reachable inbox thread, starting from the 1..6 seed, is numbered exactly 1..n with n >= 6 |
| Launcher.ApplyConcat | app/routes/home.tsx:38-57 | two batches of setter calls in a row act as one batch |
| Launcher.LastChatWriteWins | app/routes/home.tsx:40-48 | after a batch, `isChatPage` holds the value of the last `setIsChatPage` in it |
| Launcher.ClickWrites | app/routes/home.tsx:38-57 | a click issues no setter call exactly for button 1 with a page already open; otherwise button 0 always starts by hiding chat and showing to-do, `setIsOpen` is never called, and the batch ends with its only `setIsOpenPage`, to a non-null page |
| Launcher.Click | app/routes/home.tsx:38-58 | button 0 opens to-do (page 0) from null or chat, and switches to chat (page 1) from any other page. Button 1 opens chat from null and otherwise does nothing. `isOpen` never changes |
| Launcher.Toggle | app/routes/home.tsx:70-72 | the main toggle, rendered only while `isOpenPage` is null, flips `isOpen` and nothing else |
| Launcher.IsActive | app/routes/home.tsx:35 | no action button is active while `isOpenPage` is null; afterwards exactly button 1 is |
| Launcher.Initial | app/routes/home.tsx:16-19 | the page starts with `isOpen` false, `isOpenPage` null and no panel shown |
| Launcher.ActiveIffPanelShown | app/routes/home.tsx:24-35 | in a consistent state button 0 is never active, and button 1 is active exactly when one of the panels is on screen |
| Launcher.ConsistentPageValues | app/routes/home.tsx:17 | in a consistent state `isOpenPage` is null, 0 or 1 |
| Launcher.StepKeepsConsistent | app/routes/home.tsx:38-57 | every click and toggle keeps page value and shown panels in agreement |
| Launcher.ReachableConsistent | app/routes/home.tsx:16-57 | in every reachable state, 0 means to-do alone, 1 chat alone, null neither, and the two panels are never both shown |
| Launcher.OpenStaysOpen | app/routes/home.tsx:38-72 | once a panel is open no event returns `isOpenPage` to null, so the main toggle never comes back |
| TodoItem.Mount | app/components/TodoItem.tsx:34-38 | the row starts editing copies of the stored title and description, with the picker closed and no commit timer that can update |
| TodoItem.EditTitle | app/components/TodoItem.tsx:47-53 | typing changes the local title only while the to-do is not completed; a changed title re-arms the title timer over the to-do of that render, and an unchanged one changes nothing |
| TodoItem.EditDesc | app/components/TodoItem.tsx:55-61 | typing changes the local description only while the to-do is not completed; a changed description re-arms its timer over the to-do of that render |
| TodoItem.CommitTitle | app/components/TodoItem.tsx:47-53 | an update is produced iff the edited title differs, and it changes the title alone |
| TodoItem.CommitDescription | app/components/TodoItem.tsx:55-61 | an update is produced iff the edited description differs, and it changes the description alone |
| TodoItem.CommitsSettle | app/components/TodoItem.tsx:49-57 | once a commit is stored, the same edit produces no further update |
| TodoItem.Check | app/components/TodoItem.tsx:66-71 | the checkbox sets `completed` to the truthiness of `checked` ("indeterminate" counts as true) and changes nothing else |
| TodoItem.CheckLocksEditing | app/components/TodoItem.tsx:66-78 | for any row, once the stored to-do comes back ticked the title and description inputs ignore typing; once it comes back cleared typing goes through |
| TodoItem.SelectDate | app/components/TodoItem.tsx:135-144 | for a completed to-do the disabled picker does nothing; otherwise a chosen date gives an update changing only `dueDate`, no date gives no update, and the picker closes |
| TodoItem.Act | app/components/TodoItem.tsx:47-144 | every row action as written. Typing hands nothing over. Checkbox and picker updates differ from the stored to-do in at most their own field. A firing timer differs in exactly its field from the to-do captured at the last change of that field, and only while that timer is live. Only delete hands over an id, the row's own. Every update keeps the id, and a completed row updates only from the checkbox or a live timer |
| TodoItem.StaleTitleCommitRevertsTick | app/components/TodoItem.tsx:47-53 | typing a new title, ticking the box and letting the title timer fire hands over the unticked to-do with the new title, two fields away from the stored one |
| TodoItem.ActIntended | app/components/TodoItem.tsx:47-61 | with the commits taken against the to-do stored when the timer fires, every update differs from the stored to-do in at most the action's own field, and in exactly that field for a commit |
| TodoItem.IntendedCommitKeepsTick | app/components/TodoItem.tsx:47-71 | under the intended commits, the same type-tick-fire sequence hands over the ticked to-do with the new title |
| TodoItem.DaysLeftBadge | app/components/TodoItem.tsx:90-97 | the badge shows iff a due date is set and in the future. It shows the absolute day count, with "Day" iff that count is at most 1 and "Days" otherwise |
| TodoItem.SelectedDateEnablesBadge | app/components/TodoItem.tsx:41-45 | after a date is picked on an open to-do, the badge shows whenever the library reports that date in the future |

## Findings

| source | as written | input that shows it | evidently intended | confidence | as-written member | corrected member |
|---|---|---|---|---|---|---|
| app/components/TodoItem.tsx:47-61 | the debounced title and description callbacks spread the `todo` captured when their field last changed, since the hook re-arms only on that field | open to-do T: type a new title v, tick the box within the second, the parent stores T with `completed` true, the timer fires with `{...T, title: v}` and `completed` false | the commit changes only its field of the to-do stored when it fires | medium, not executed | TodoItem.StaleTitleCommitRevertsTick | TodoItem.IntendedCommitKeepsTick |

## Left out

- ChatInbox.Combine: takes one `now` for all entries, while the source reads `Date.now()` afresh for each post. The clock is a parameter, and consecutive readings are taken to be equal.
- Network fetch of users and posts, and its error handling (`getUserMessages`): I/O. Only the pure join is modelled, over given sequences.
- Date and time work (`format(..., "HH:mm")`, `toLocaleString`, `toISOString`, `differenceInCalendarDays`, `isAfter`, `Date.now()`): clock and library calls. Times and dates are opaque strings, and clock readings and day counts are parameters.
- Timers: the 2-second support-reply delay, the 1-second debounce hook, and the scroll timeouts. The reply is an explicit event; the debounced commits are functions applied when the quiet period ends.
- DOM scrolling, scroll listeners and programmatic scroll-to-bottom: browser I/O. Only the `isAtBottom` arithmetic and the flags are modelled, and a programmatic scroll appears as an ordinary scroll event.
- Reading `localStorage` in the to-do panel: the result is discarded by the page.
- Rendering components (bubbles, separator, action-button class names), the bookmark catalog and the build configuration: markup and static data only.
- JsString.ToLower: lower-cases ASCII letters only, not JavaScript's full Unicode case mapping.
- TextConfig.Truncate: lengths and cut points count characters, not UTF-16 code units. JavaScript measures a character outside the Basic Multilingual Plane as two units and can cut between them, for example `truncate("😀😀", 3)` keeps one emoji and half of the next; the model returns such text unchanged.
- JsString.IsWhitespace: matches the fixed ECMAScript whitespace list. It does not track later Unicode additions to the space-separator category.
- Composer.BeginEdit / Composer.Remove: the own-message bubble (`app/components/bubbles-chat/FromMe.tsx`) takes only `text` and `time` and drops the `onClickEdit` / `onClickDelete` callbacks the chat pages pass to it, so as shown the page offers no way to edit or delete. The handlers are modelled as if they were wired, and the `EditClicked` / `DeleteClicked` events of the run lemmas over-approximate what the page can do.
- Launcher.Click: takes any integer as the button index, as the handler's `if (index === 0) ... else` does. The page renders only buttons 0 and 1.
- SupportChat.Step: a reply event while no reply is pending is ignored, because no timer exists then. Likewise `MultipleUserChat.Step` ignores a jump-button click while the button is hidden, and `Launcher.Step` ignores a toggle click while the toggle is not rendered.
- Message ids are JavaScript numbers: modelled as unbounded integers. No realistic thread length makes `length + 1` lose precision.
- MultipleUserChat.AtBottom: works over integer scroll positions, while browsers may report a fractional `scrollTop`. Nothing proved depends on integrality: every lemma over scrolling ranges over all scroll inputs, and only the resulting `isAtBottom` flag enters the state.

=== FILE: chat_inbox.dfy ===
/**
 The inbox page: the keyword search over the fetched conversation list, the
 join of posts with their authors that builds that list, and the page's own
 append-only chat thread (it has no edit or delete).
 */
module ChatInbox {
  import opened Wrappers
  import opened JsString
  import opened ChatThread
  import Composer

  const UnknownSender: string := "Unknown Sender"
  /** One hour in milliseconds: each entry is stamped an hour earlier than the one before. */
  const HourMs: int := 3600000

  datatype User = User(id: int, name: string)
  datatype Post = Post(id: int, userId: int, title: string, body: string)

  /** One conversation of the list; `timestamp` is the epoch milliseconds later shown with `toLocaleString`. */
  datatype Entry = Entry(id: int, title: string, body: string, sender: string, timestamp: int)

  /** `users.find((u) => u.id === userId)`: the first user with that id, if any. */
  function FindUser(users: seq<User>, userId: int): (r: Option<User>)
    ensures r.None? <==> forall i :: 0 <= i < |users| ==> users[i].id != userId
    ensures r.Some? ==> exists i :: 0 <= i < |users| && users[i] == r.value
                          && r.value.id == userId
                          && forall j :: 0 <= j < i ==> users[j].id != userId
  {
    if users == [] then None
    else if users[0].id == userId then Some(users[0])
    else
      var r := FindUser(users[1..], userId);
      if r.Some? then
        var i :| 0 <= i < |users[1..]| && users[1..][i] == r.value && r.value.id == userId
                 && forall j :: 0 <= j < i ==> users[1..][j].id != userId;
        assert users[i + 1] == r.value;
        r
      else r
  }

  /** `user?.name || "Unknown Sender"`: a missing user or an empty name both fall back. */
  function SenderName(user: Option<User>): (name: string)
    ensures user.Some? && user.value.name != "" ==> name == user.value.name
    ensures user.None? || user.value.name == "" ==> name == UnknownSender
  {
    match user
    case Some(u) => if u.name != "" then u.name else UnknownSender
    case None => UnknownSender
  }

  /** The conversation entry built from the post at position `index`. */
  function ToEntry(post: Post, index: int, users: seq<User>, now: int): Entry {
    Entry(post.id, post.title, post.body, SenderName(FindUser(users, post.userId)), now - index * HourMs)
  }

  /**
   `combined`: one entry per post, in post order, with the post's id, title and
   body, the author's name as sender, and a time one hour earlier per position.
   */
  function Combine(posts: seq<Post>, users: seq<User>, now: int): (r: seq<Entry>)
    ensures |r| == |posts|
    ensures forall i :: 0 <= i < |posts| ==>
              && r[i].id == posts[i].id && r[i].title == posts[i].title && r[i].body == posts[i].body
              && r[i].timestamp == now - i * HourMs
    ensures forall i :: 0 <= i < |posts| ==>
              r[i].sender == SenderName(FindUser(users, posts[i].userId))
  {
    seq(|posts|, i requires 0 <= i < |posts| => ToEntry(posts[i], i, users, now))
  }

  /** A post whose author is missing from the user list is shown as sent by "Unknown Sender". */
  lemma CombineUnknownAuthor(posts: seq<Post>, users: seq<User>, now: int, i: int)
    requires 0 <= i < |posts|
    requires forall u :: u in users ==> u.id != posts[i].userId
    ensures Combine(posts, users, now)[i].sender == UnknownSender
  {
    assert forall j :: 0 <= j < |users| ==> users[j] in users;
  }

  /** A search hit: the lower-cased title contains the (already lower-cased) keyword. */
  predicate Matches(e: Entry, keyword: string) {
    Includes(ToLower(e.title), keyword)
  }

  /** How many positions of `entries` hold a matching entry. */
  function CountMatches(entries: seq<Entry>, keyword: string): nat {
    if entries == [] then 0
    else (if Matches(entries[0], keyword) then 1 else 0) + CountMatches(entries[1..], keyword)
  }

  /**
   `allMessages.filter((msg) => msg.title.toLowerCase().includes(keyword))`:
   every matching position is kept, repeats included, and nothing else.
   */
  function FilterByTitle(entries: seq<Entry>, keyword: string): (r: seq<Entry>)
    ensures forall e :: e in r <==> e in entries && Matches(e, keyword)
    ensures IsSubsequence(r, entries)
    ensures |r| == CountMatches(entries, keyword)
  {
    if entries == [] then []
    else if Matches(entries[0], keyword) then [entries[0]] + FilterByTitle(entries[1..], keyword)
    else FilterByTitle(entries[1..], keyword)
  }

  /** `handleSearch`: an empty keyword restores the full list, any other keeps the matching entries in order. */
  function Search(all: seq<Entry>, raw: string): (r: seq<Entry>)
    ensures raw == [] ==> r == all
    ensures raw != [] ==>
              && IsSubsequence(r, all)
              && |r| == CountMatches(all, ToLower(raw))
              && forall e :: e in r <==> e in all && Includes(ToLower(e.title), ToLower(raw))
  {
    var keyword := ToLower(raw);
    if keyword == [] then all else FilterByTitle(all, keyword)
  }

  /** Search is case-insensitive over ASCII: the keyword's letter case does not matter. */
  lemma SearchIgnoresKeywordCase(all: seq<Entry>, raw: string)
    ensures Search(all, ToLower(raw)) == Search(all, raw)
  {
    ToLowerIdempotent(raw);
  }

  /** An entry is found exactly when its lower-cased title contains the keyword somewhere. */
  lemma SearchFindsOccurrences(all: seq<Entry>, raw: string, e: Entry)
    requires e in all
    ensures e in Search(all, raw) <==> OccursIn(ToLower(e.title), ToLower(raw))
  {
    var keyword := ToLower(raw);
    if keyword == [] {
      assert OccursAt(ToLower(e.title), keyword, 0);
    } else {
      assert e in Search(all, raw) <==> Includes(ToLower(e.title), keyword);
      IncludesIffOccurs(ToLower(e.title), keyword);
    }
  }

  /** The inbox page's own thread: typing and sending only. */
  datatype Event = Typed(value: string) | Submitted(time: string)

  function Step(c: Composer.Composer, e: Event): Composer.Composer {
    match e
    case Typed(value) => Composer.Type(c, value)
    case Submitted(time) => Composer.Send(c, time)
  }

  function Run(c: Composer.Composer, events: seq<Event>): Composer.Composer
    decreases |events|
  {
    if events == [] then c else Run(Step(c, events[0]), events[1..])
  }

  function Initial(): Composer.Composer {
    Composer.Composer(Seed(), "", "", false, None)
  }

  /** This thread only grows, and each message keeps its place. */
  lemma {:induction false} RunOnlyAppends(c: Composer.Composer, events: seq<Event>)
    ensures |Run(c, events).thread| >= |c.thread|
    ensures Run(c, events).thread[..|c.thread|] == c.thread
    decreases |events|
  {
    if events != [] {
      var next := Step(c, events[0]);
      RunOnlyAppends(next, events[1..]);
      assert next.thread[..|c.thread|] == c.thread;
    }
  }

  /** Since this page only appends, its ids stay exactly 1..n in order, starting from the seed's 1..6. */
  lemma {:induction false} RunKeepsSequentialIds(c: Composer.Composer, events: seq<Event>)
    requires SequentialIds(c.thread)
    ensures SequentialIds(Run(c, events).thread)
    ensures UniqueIds(Run(c, events).thread)
    decreases |events|
  {
    if events != [] {
      var next := Step(c, events[0]);
      if events[0].Submitted? && !IsBlank(c.input) {
        AppendKeepsSequentialIds(c.thread, c.input, events[0].time);
      }
      RunKeepsSequentialIds(next, events[1..]);
    }
  }

  /** Every reachable inbox thread is numbered 1..n with n at least 6. */
  lemma ReachableIds(events: seq<Event>)
    ensures SequentialIds(Run(Initial(), events).thread)
    ensures |Run(Initial(), events).thread| >= 6
  {
    RunKeepsSequentialIds(Initial(), events);
    RunOnlyAppends(Initial(), events);
  }
}

=== FILE: chat_thread.dfy ===
/**
 A chat thread: the ordered list of message records every chat page keeps in
 component state, and the list transformations its handlers apply to it
 (append a message of one's own, delete by id, edit by id).
 */
module ChatThread {

  /** One chat message. `time` is an already formatted clock string. */
  datatype Message = Message(
    id: int,
    sender: string,
    text: string,
    time: string,
    textColor: string,
    bgColor: string)

  type Thread = seq<Message>

  /** The sender name of the messages the user writes. */
  const OwnSender: string := "You"

  /** The message `addNewMessage` builds for the thread `t`. */
  function OwnMessage(t: Thread, text: string, time: string): Message {
    Message(|t| + 1, OwnSender, text, time, "", "")
  }

  /** `[...dataMessage, message]`: appends one own message whose id is the old length plus one. */
  function Append(t: Thread, text: string, time: string): (r: Thread)
    ensures |r| == |t| + 1
    ensures r[..|t|] == t
    ensures r[|t|].id == |t| + 1 && r[|t|].sender == OwnSender
    ensures r[|t|].text == text && r[|t|].time == time
    ensures r[|t|].textColor == "" && r[|t|].bgColor == ""
  {
    t + [OwnMessage(t, text, time)]
  }

  /** Number of messages in `t` that carry the id `id`. */
  function CountId(t: Thread, id: int): (n: nat)
    ensures n <= |t|
  {
    if t == [] then 0 else (if t[0].id == id then 1 else 0) + CountId(t[1..], id)
  }

  /** `a` is `b` with some elements left out, the rest kept in their order. */
  ghost predicate IsSubsequence<T>(a: seq<T>, b: seq<T>)
    decreases |b|
  {
    if a == [] then true
    else if b == [] then false
    else (a[0] == b[0] && IsSubsequence(a[1..], b[1..])) || IsSubsequence(a, b[1..])
  }

  /** `dataMessage.filter((msg) => msg.id !== id)` */
  function Delete(t: Thread, id: int): (r: Thread)
    ensures forall m :: m in r <==> m in t && m.id != id
    ensures IsSubsequence(r, t)
    ensures |r| == |t| - CountId(t, id)
    ensures CountId(t, id) == 0 ==> r == t
  {
    if t == [] then []
    else if t[0].id == id then Delete(t[1..], id)
    else [t[0]] + Delete(t[1..], id)
  }

  /** Deleting the same id a second time changes nothing. */
  lemma DeleteIdempotent(t: Thread, id: int)
    ensures Delete(Delete(t, id), id) == Delete(t, id)
  {
    var r := Delete(t, id);
    NoIdMeansZeroCount(r, id);
  }

  lemma {:induction false} NoIdMeansZeroCount(t: Thread, id: int)
    requires forall m :: m in t ==> m.id != id
    ensures CountId(t, id) == 0
  {
    if t != [] {
      assert t[0] in t;
      NoIdMeansZeroCount(t[1..], id);
    }
  }

  /** The message `m` as `handleUpdateMessage` leaves it for the target id. */
  function Edited(m: Message, id: int, text: string, time: string): Message {
    if m.id == id then m.(text := text, time := time) else m
  }

  /** `dataMessage.map((msg) => msg.id === id ? { ...msg, text, time } : msg)` */
  function Update(t: Thread, id: int, text: string, time: string): (r: Thread)
    ensures |r| == |t|
    ensures forall i :: 0 <= i < |t| ==>
              && r[i].id == t[i].id && r[i].sender == t[i].sender
              && r[i].textColor == t[i].textColor && r[i].bgColor == t[i].bgColor
    ensures forall i :: 0 <= i < |t| && t[i].id == id ==> r[i].text == text && r[i].time == time
    ensures forall i :: 0 <= i < |t| && t[i].id != id ==> r[i] == t[i]
  {
    seq(|t|, i requires 0 <= i < |t| => Edited(t[i], id, text, time))
  }

  /** Re-applying the same edit changes nothing further. */
  lemma UpdateIdempotent(t: Thread, id: int, text: string, time: string)
    ensures Update(Update(t, id, text, time), id, text, time) == Update(t, id, text, time)
  {
  }

  /** An edit never changes ids, so deleting that id afterwards leaves exactly what deleting it before the edit would. */
  lemma {:induction false} DeleteAfterUpdate(t: Thread, id: int, text: string, time: string)
    ensures Delete(Update(t, id, text, time), id) == Delete(t, id)
  {
    if t != [] {
      var u := Update(t, id, text, time);
      assert u[1..] == Update(t[1..], id, text, time);
      DeleteAfterUpdate(t[1..], id, text, time);
    }
  }

  /** The ids of the thread are exactly 1, 2, ..., n in order. */
  ghost predicate SequentialIds(t: Thread) {
    forall i :: 0 <= i < |t| ==> t[i].id == i + 1
  }

  /** No two messages share an id. */
  ghost predicate UniqueIds(t: Thread) {
    forall i, j :: 0 <= i < j < |t| ==> t[i].id != t[j].id
  }

  /** With appends only, ids stay 1..n, and then they are unique. */
  lemma AppendKeepsSequentialIds(t: Thread, text: string, time: string)
    requires SequentialIds(t)
    ensures SequentialIds(Append(t, text, time))
    ensures UniqueIds(Append(t, text, time))
  {
  }

  /**
   Once delete exists, ids stop being unique: deleting the first message of a
   thread numbered 1..n (n >= 2) and sending again reuses the id n of the last
   message.
   */
  lemma {:induction false} DeleteThenAppendDuplicatesId(t: Thread, text: string, time: string)
    requires SequentialIds(t) && |t| >= 2
    ensures !UniqueIds(Append(Delete(t, 1), text, time))
  {
    var d := Delete(t, 1);
    assert t[0].id == 1;
    assert CountId(t, 1) == 1 by {
      assert forall m :: m in t[1..] ==> m.id != 1;
      NoIdMeansZeroCount(t[1..], 1);
    }
    var last := t[|t| - 1];
    assert last in t && last.id == |t|;
    assert last in d;
    var k :| 0 <= k < |d| && d[k] == last;
    var r := Append(d, text, time);
    assert r[k].id == r[|d|].id;
  }

  const SeedText1: string := "No worries. It will be completed ASAP. I’ve asked him yesterday."
  const SeedText3: string :=
    "Hello Obaidullah, I will be your case advisor for case #029290. I have assigned some homework for you to fill. Please keep up with the due dates. Should you have any questions, you can message me anytime. Thanks."
  const SeedText4: string :=
    "Please contact Mary for questions regarding the case bcs she will be managing your forms from now on! Thanks Mary."
  const SeedText6: string := "Morning. I’ll try to do them. Thanks"

  /** The six messages the group chat page and the inbox page both start from. */
  function Seed(): (t: Thread)
    ensures |t| == 6 && SequentialIds(t)
  {
    [ Message(1, OwnSender, SeedText1, "19:32", "", ""),
      Message(2, "Date", "Today June 09, 2021", "", "", ""),
      Message(3, "Mary Hilda", SeedText3, "19:32", "text-orange-400", "bg-orange-300"),
      Message(4, OwnSender, SeedText4, "19:32", "", ""),
      Message(5, "New", "New Message", "", "", ""),
      Message(6, "Obaidullah Amarkhil", SeedText6, "19:32", "text-teal-400", "bg-teal-100") ]
  }
}

=== FILE: composer.dfy ===
/**
 The message composer shared by the support and group chat pages: the thread,
 the input box, the empty-message error, and edit mode (a flag plus the id of
 the message being edited). Send means "add" outside edit mode and "update"
 inside it.
 */
module Composer {
  import opened Wrappers
  import opened JsString
  import opened ChatThread

  const EmptyMessageError: string := "Please enter a message"

  datatype Composer = Composer(
    thread: Thread,
    input: string,
    error: string,
    editing: bool,
    editId: Option<int>)

  /** Edit mode always knows which message it edits. */
  predicate Valid(c: Composer) {
    c.editing ==> c.editId.Some?
  }

  /** `onChange` of the input: takes the typed value and clears any pending error. */
  function Type(c: Composer, value: string): (r: Composer)
    ensures r.input == value && r.error == ""
    ensures r.thread == c.thread && r.editing == c.editing && r.editId == c.editId
  {
    c.(input := value, error := "")
  }

  /** `addNewMessage`: rejects blank input with an error, otherwise appends an own message and clears the input. */
  function Send(c: Composer, time: string): (r: Composer)
    ensures IsBlank(c.input) ==> r == c.(error := EmptyMessageError)
    ensures !IsBlank(c.input) ==>
              && r.thread == Append(c.thread, c.input, time)
              && r.input == ""
              && r.error == c.error && r.editing == c.editing && r.editId == c.editId
  {
    if IsBlank(c.input) then c.(error := EmptyMessageError)
    else c.(thread := Append(c.thread, c.input, time), input := "")
  }

  /** The `onClickEdit` callback handed to an own bubble: loads the message text into the input and remembers its id. */
  function BeginEdit(c: Composer, m: Message): (r: Composer)
    ensures r.editing && r.editId == Some(m.id) && r.input == m.text
    ensures r.thread == c.thread && r.error == c.error
  {
    c.(input := m.text, editing := true, editId := Some(m.id))
  }

  /**
   `handleUpdateMessage(idMessage!, chatMessage)`: rewrites text and time of the
   messages with the remembered id, with no blank check, and always leaves edit
   mode with the id cleared and the input emptied. An unset id matches no message.
   */
  function CommitEdit(c: Composer, time: string): (r: Composer)
    ensures c.editId.Some? ==> r.thread == Update(c.thread, c.editId.value, c.input, time)
    ensures c.editId.None? ==> r.thread == c.thread
    ensures !r.editing && r.editId == None && r.input == "" && r.error == c.error
  {
    var thread := match c.editId
      case Some(id) => Update(c.thread, id, c.input, time)
      case None => c.thread;
    c.(thread := thread, input := "", editing := false, editId := None)
  }

  /** The `onClickDelete` callback handed to an own bubble. */
  function Remove(c: Composer, id: int): (r: Composer)
    ensures r.thread == Delete(c.thread, id)
    ensures r.input == c.input && r.error == c.error && r.editing == c.editing && r.editId == c.editId
  {
    c.(thread := Delete(c.thread, id))
  }

  /** The Send button and the Enter key: update in edit mode, add otherwise. */
  function Submit(c: Composer, time: string): (r: Composer)
    ensures c.editing ==> r == CommitEdit(c, time)
    ensures !c.editing ==> r == Send(c, time)
  {
    if c.editing then CommitEdit(c, time) else Send(c, time)
  }

  /** A user action on the composer. */
  datatype Event =
    | Typed(value: string)
    | Submitted(time: string)
    | EditClicked(m: Message)
    | DeleteClicked(id: int)

  function Step(c: Composer, e: Event): Composer {
    match e
    case Typed(value) => Type(c, value)
    case Submitted(time) => Submit(c, time)
    case EditClicked(m) => BeginEdit(c, m)
    case DeleteClicked(id) => Remove(c, id)
  }

  /** Every action keeps edit mode tied to a remembered id. */
  lemma StepKeepsValid(c: Composer, e: Event)
    requires Valid(c)
    ensures Valid(Step(c, e))
  {
  }

  function Run(c: Composer, events: seq<Event>): Composer
    decreases |events|
  {
    if events == [] then c else Run(Step(c, events[0]), events[1..])
  }

  /** Whenever edit mode is on, a message id is set, whatever the user did before. */
  lemma {:induction false} RunKeepsValid(c: Composer, events: seq<Event>)
    requires Valid(c)
    ensures Valid(Run(c, events))
    decreases |events|
  {
    if events != [] {
      StepKeepsValid(c, events[0]);
      RunKeepsValid(Step(c, events[0]), events[1..]);
    }
  }

  /** A submit outside edit mode never edits; a submit in edit mode never appends. */
  lemma SubmitLength(c: Composer, time: string)
    ensures !c.editing && !IsBlank(c.input) ==> |Submit(c, time).thread| == |c.thread| + 1
    ensures c.editing || IsBlank(c.input) ==> |Submit(c, time).thread| == |c.thread|
  {
  }
}

=== FILE: js_string.dfy ===
/**
 The JavaScript string built-ins the widget relies on: `trim` (to reject blank
 chat input), `toLowerCase` and `includes` (for the keyword search). Strings are
 sequences of characters; lower-casing is restricted to ASCII letters.
 */
module JsString {

  /** ECMAScript WhiteSpace and LineTerminator code points, the set `trim` removes. */
  predicate IsWhitespace(c: char) {
    var n := c as int;
    || 0x09 <= n <= 0x0D || n == 0x20 || n == 0xA0 || n == 0x1680
    || 0x2000 <= n <= 0x200A || n == 0x2028 || n == 0x2029 || n == 0x202F
    || n == 0x205F || n == 0x3000 || n == 0xFEFF
  }

  /** `s.trimStart()`: drops the leading whitespace and keeps the rest. */
  function TrimStart(s: string): (r: string)
    ensures |r| <= |s| && r == s[|s| - |r|..]
    ensures forall i :: 0 <= i < |s| - |r| ==> IsWhitespace(s[i])
    ensures r == [] || !IsWhitespace(r[0])
  {
    if |s| > 0 && IsWhitespace(s[0]) then TrimStart(s[1..]) else s
  }

  /** `s.trimEnd()`: drops the trailing whitespace and keeps the rest. */
  function TrimEnd(s: string): (r: string)
    ensures |r| <= |s| && r == s[..|r|]
    ensures forall i :: |r| <= i < |s| ==> IsWhitespace(s[i])
    ensures r == [] || !IsWhitespace(r[|r| - 1])
  {
    if |s| > 0 && IsWhitespace(s[|s| - 1]) then TrimEnd(s[..|s| - 1]) else s
  }

  /** `r` is the slice of `s` from `a`, and everything of `s` before and after that slice is whitespace. */
  predicate CutAt(s: string, r: string, a: int) {
    && 0 <= a <= |s| - |r| && r == s[a..a + |r|]
    && (forall i :: 0 <= i < a ==> IsWhitespace(s[i]))
    && (forall i :: a + |r| <= i < |s| ==> IsWhitespace(s[i]))
  }

  /**
   `s.trim()`: the part of `s` left after cutting a whitespace-only prefix and
   a whitespace-only suffix; it neither starts nor ends with whitespace.
   */
  function Trim(s: string): (r: string)
    ensures exists a :: CutAt(s, r, a)
    ensures r == [] || (!IsWhitespace(r[0]) && !IsWhitespace(r[|r| - 1]))
  {
    var m := TrimStart(s);
    var r := TrimEnd(m);
    var a := |s| - |m|;
    assert CutAt(s, r, a);
    r
  }

  /** `!s.trim()`: the trimmed string is empty, hence falsy. */
  predicate IsBlank(s: string) {
    Trim(s) == []
  }

  /** A string is blank exactly when every one of its characters is whitespace. */
  lemma BlankIffAllWhitespace(s: string)
    ensures IsBlank(s) <==> forall i :: 0 <= i < |s| ==> IsWhitespace(s[i])
  {
  }

  function LowerChar(c: char): char {
    if 'A' <= c <= 'Z' then (c as int + 32) as char else c
  }

  /** `s.toLowerCase()`, restricted to the ASCII letters. */
  function ToLower(s: string): (r: string)
    ensures |r| == |s|
    ensures forall i :: 0 <= i < |s| ==> r[i] == LowerChar(s[i])
  {
    if s == [] then [] else [LowerChar(s[0])] + ToLower(s[1..])
  }

  /** Lower-casing twice is lower-casing once. */
  lemma ToLowerIdempotent(s: string)
    ensures ToLower(ToLower(s)) == ToLower(s)
  {
    assert forall i :: 0 <= i < |s| ==> LowerChar(LowerChar(s[i])) == LowerChar(s[i]);
  }

  /** `needle` occurs in `hay` starting at position `i`. */
  predicate OccursAt(hay: string, needle: string, i: int) {
    0 <= i && i + |needle| <= |hay| && hay[i..i + |needle|] == needle
  }

  /** `needle` occurs somewhere in `hay`. */
  ghost predicate OccursIn(hay: string, needle: string) {
    exists i :: OccursAt(hay, needle, i)
  }

  /** `hay.includes(needle)`, computed by trying each start position in turn. */
  function Includes(hay: string, needle: string): bool
    decreases |hay|
  {
    if |needle| > |hay| then false
    else if needle <= hay then true
    else Includes(hay[1..], needle)
  }

  /** `Includes` holds exactly when the needle occurs at some position. */
  lemma {:induction false} IncludesIffOccurs(hay: string, needle: string)
    ensures Includes(hay, needle) <==> OccursIn(hay, needle)
    decreases |hay|
  {
    if |needle| > |hay| {
    } else if needle <= hay {
      assert OccursAt(hay, needle, 0);
    } else {
      IncludesIffOccurs(hay[1..], needle);
      if Includes(hay, needle) {
        var j :| OccursAt(hay[1..], needle, j);
        assert hay[1..][j..j + |needle|] == hay[j + 1..j + 1 + |needle|];
        assert OccursAt(hay, needle, j + 1);
      } else {
        forall i | OccursAt(hay, needle, i)
          ensures false
        {
          if i != 0 {
            assert hay[1..][i - 1..i - 1 + |needle|] == hay[i..i + |needle|];
            assert OccursAt(hay[1..], needle, i - 1);
          }
        }
      }
    }
  }
}

=== FILE: launcher.dfy ===
/**
 The floating launcher of the home route: a main toggle that slides the two
 action buttons in and out, and the two buttons that open the to-do panel
 (`isOpenPage = 0`) or the chat panel (`isOpenPage = 1`). A click handler
 calls several state setters; React batches them and, for each variable, the
 last write wins. The model runs each handler as its list of writes.
 */
module Launcher {
  import opened Wrappers

  const TodoPage: int := 0
  const ChatPage: int := 1

  /** `isOpen`, `isOpenPage` (None is `null`), `isChatPage`, `isTodoPage` */
  datatype Launcher = Launcher(isOpen: bool, openPage: Option<int>, chatShown: bool, todoShown: bool)

  /** One state-setter call. */
  datatype Write =
    | SetOpen(open: bool)
    | SetOpenPage(page: Option<int>)
    | SetChatPage(shown: bool)
    | SetTodoPage(shown: bool)

  function ApplyOne(s: Launcher, w: Write): Launcher {
    match w
    case SetOpen(b) => s.(isOpen := b)
    case SetOpenPage(p) => s.(openPage := p)
    case SetChatPage(b) => s.(chatShown := b)
    case SetTodoPage(b) => s.(todoShown := b)
  }

  /** The batched update: the writes take effect in call order, so the last write to each variable wins. */
  function Apply(s: Launcher, writes: seq<Write>): Launcher
    decreases |writes|
  {
    if writes == [] then s else Apply(ApplyOne(s, writes[0]), writes[1..])
  }

  /** Applying one write and then the rest is applying the whole batch. */
  lemma ApplyCons(s: Launcher, w: Write, ws: seq<Write>)
    ensures Apply(s, [w] + ws) == Apply(ApplyOne(s, w), ws)
  {
    assert ([w] + ws)[1..] == ws;
  }

  /** Two batches in a row are one batch. */
  lemma {:induction false} ApplyConcat(s: Launcher, xs: seq<Write>, ys: seq<Write>)
    ensures Apply(s, xs + ys) == Apply(Apply(s, xs), ys)
    decreases |xs|
  {
    if xs == [] {
      assert xs + ys == ys;
    } else {
      assert xs + ys == [xs[0]] + (xs[1..] + ys);
      ApplyCons(s, xs[0], xs[1..] + ys);
      ApplyConcat(ApplyOne(s, xs[0]), xs[1..], ys);
    }
  }

  /** Writes to other variables leave the chat flag alone. */
  lemma {:induction false} ApplyKeepsChat(s: Launcher, ws: seq<Write>)
    requires forall i :: 0 <= i < |ws| ==> !ws[i].SetChatPage?
    ensures Apply(s, ws).chatShown == s.chatShown
    decreases |ws|
  {
    if ws != [] {
      ApplyKeepsChat(ApplyOne(s, ws[0]), ws[1..]);
    }
  }

  /** Last write wins: after a batch, the chat flag holds the value of the last `setIsChatPage` in it. */
  lemma LastChatWriteWins(s: Launcher, before: seq<Write>, shown: bool, after: seq<Write>)
    requires forall i :: 0 <= i < |after| ==> !after[i].SetChatPage?
    ensures Apply(s, before + [SetChatPage(shown)] + after).chatShown == shown
  {
    ApplyConcat(s, before + [SetChatPage(shown)], after);
    ApplyConcat(s, before, [SetChatPage(shown)]);
    ApplyCons(Apply(s, before), SetChatPage(shown), []);
    ApplyKeepsChat(Apply(s, before + [SetChatPage(shown)]), after);
  }

  lemma ApplyThree(s: Launcher, a: Write, b: Write, c: Write)
    ensures Apply(s, [a, b, c]) == ApplyOne(ApplyOne(ApplyOne(s, a), b), c)
  {
    ApplyCons(s, a, [b, c]);
    assert [a] + [b, c] == [a, b, c];
    ApplyCons(ApplyOne(s, a), b, [c]);
    assert [b] + [c] == [b, c];
    ApplyCons(ApplyOne(ApplyOne(s, a), b), c, []);
    assert [c] + [] == [c];
  }

  lemma ApplyFive(s: Launcher, a: Write, b: Write, c: Write, d: Write, e: Write)
    ensures Apply(s, [a, b, c, d, e]) == Apply(ApplyOne(ApplyOne(s, a), b), [c, d, e])
  {
    ApplyCons(s, a, [b, c, d, e]);
    assert [a] + [b, c, d, e] == [a, b, c, d, e];
    ApplyCons(ApplyOne(s, a), b, [c, d, e]);
    assert [b] + [c, d, e] == [b, c, d, e];
  }

  /** The page loads with the buttons tucked away and no panel open. */
  function Initial(): (s: Launcher)
    ensures !s.isOpen && s.openPage == None && !s.chatShown && !s.todoShown
  {
    Launcher(false, None, false, false)
  }

  /** The setter calls of the `onClick` of action button `index`, in source order, for the current state. */
  function ClickWrites(s: Launcher, index: int): (w: seq<Write>)
    ensures w == [] <==> index != 0 && s.openPage.Some?
    ensures w != [] ==> w[|w| - 1].SetOpenPage? && w[|w| - 1].page.Some?
    ensures index == 0 ==> |w| >= 3 && w[..2] == [SetChatPage(false), SetTodoPage(true)]
    ensures forall i :: 0 <= i < |w| ==> !w[i].SetOpen?
    ensures forall i :: 0 <= i < |w| - 1 ==> !w[i].SetOpenPage?
  {
    if index == 0 then
      if s.openPage == None then
        [SetChatPage(false), SetTodoPage(true), SetOpenPage(Some(TodoPage))]
      else if s.openPage == Some(ChatPage) then
        [SetChatPage(false), SetTodoPage(true), SetOpenPage(Some(TodoPage))]
      else
        [SetChatPage(false), SetTodoPage(true),
         SetChatPage(true), SetTodoPage(false), SetOpenPage(Some(ChatPage))]
    else
      if s.openPage == None then [SetChatPage(true), SetTodoPage(false), SetOpenPage(Some(ChatPage))]
      else []
  }

  /**
   A click on action button `index`. Button 0 opens the to-do panel from the
   closed state or from the chat panel, and swaps to chat from any other page
   (the to-do panel); button 1 opens chat from the closed state and is
   otherwise inert.
   */
  function Click(s: Launcher, index: int): (r: Launcher)
    ensures r.isOpen == s.isOpen
    ensures index == 0 && (s.openPage == None || s.openPage == Some(ChatPage)) ==>
              r.openPage == Some(TodoPage) && r.todoShown && !r.chatShown
    ensures index == 0 && s.openPage != None && s.openPage != Some(ChatPage) ==>
              r.openPage == Some(ChatPage) && r.chatShown && !r.todoShown
    ensures index != 0 && s.openPage == None ==>
              r.openPage == Some(ChatPage) && r.chatShown && !r.todoShown
    ensures index != 0 && s.openPage != None ==> r == s
  {
    var ws := ClickWrites(s, index);
    if index == 0 && s.openPage != None && s.openPage != Some(ChatPage) then
      ApplyFive(s, ws[0], ws[1], ws[2], ws[3], ws[4]);
      assert ws == [ws[0], ws[1], ws[2], ws[3], ws[4]];
      var s2 := ApplyOne(ApplyOne(s, ws[0]), ws[1]);
      ApplyThree(s2, ws[2], ws[3], ws[4]);
      assert [ws[2], ws[3], ws[4]] == ws[2..];
      Apply(s, ws)
    else if index == 0 || s.openPage == None then
      ApplyThree(s, ws[0], ws[1], ws[2]);
      assert ws == [ws[0], ws[1], ws[2]];
      Apply(s, ws)
    else
      Apply(s, ws)
  }

  /** The main toggle is rendered only while no panel is open. */
  predicate ToggleShown(s: Launcher) {
    s.openPage == None
  }

  /** `setIsOpen(!isOpen)` */
  function Toggle(s: Launcher): (r: Launcher)
    requires ToggleShown(s)
    ensures r.isOpen == !s.isOpen
    ensures r.openPage == s.openPage && r.chatShown == s.chatShown && r.todoShown == s.todoShown
  {
    ApplyCons(s, SetOpen(!s.isOpen), []);
    assert [SetOpen(!s.isOpen)] + [] == [SetOpen(!s.isOpen)];
    Apply(s, [SetOpen(!s.isOpen)])
  }

  /** `isActive` of action button `index`: no button is active while closed, afterwards only button 1. */
  function IsActive(s: Launcher, index: int): (b: bool)
    ensures s.openPage == None ==> !b
    ensures s.openPage != None ==> (b <==> index == 1)
  {
    if s.openPage == None then false else index == 1
  }

  /** What the user can do on the launcher. */
  datatype Event = ActionClicked(index: int) | ToggleClicked

  /** One event; a click on the main toggle while it is not rendered cannot happen and changes nothing. */
  function Step(s: Launcher, e: Event): Launcher {
    match e
    case ActionClicked(index) => Click(s, index)
    case ToggleClicked => if ToggleShown(s) then Toggle(s) else s
  }

  function Run(s: Launcher, events: seq<Event>): Launcher
    decreases |events|
  {
    if events == [] then s else Run(Step(s, events[0]), events[1..])
  }

  /**
   `isOpenPage` decides what is on screen: 0 is the to-do panel alone, 1 the
   chat panel alone, null neither; the two panels are never shown together.
   */
  predicate Consistent(s: Launcher) {
    && (s.openPage == Some(TodoPage) <==> s.todoShown && !s.chatShown)
    && (s.openPage == Some(ChatPage) <==> s.chatShown && !s.todoShown)
    && (s.openPage == None <==> !s.chatShown && !s.todoShown)
    && !(s.chatShown && s.todoShown)
  }

  /** A consistent state has `isOpenPage` null, 0 or 1 and nothing else. */
  lemma ConsistentPageValues(s: Launcher)
    requires Consistent(s)
    ensures s.openPage == None || s.openPage == Some(TodoPage) || s.openPage == Some(ChatPage)
  {
  }

  lemma StepKeepsConsistent(s: Launcher, e: Event)
    requires Consistent(s)
    ensures Consistent(Step(s, e))
  {
  }

  /** `StepKeepsConsistent` carried along an event sequence: the same induction as `Composer.RunKeepsValid`, over the launcher's steps. */
  lemma {:induction false} RunKeepsConsistent(s: Launcher, events: seq<Event>)
    requires Consistent(s)
    ensures Consistent(Run(s, events))
    decreases |events|
  {
    if events != [] {
      StepKeepsConsistent(s, events[0]);
      RunKeepsConsistent(Step(s, events[0]), events[1..]);
    }
  }

  /** Every state reachable from the initial one is consistent. */
  lemma ReachableConsistent(events: seq<Event>)
    ensures Consistent(Run(Initial(), events))
  {
    RunKeepsConsistent(Initial(), events);
  }

  /**
   In a consistent state, button 0 is never active, and button 1 is active
   exactly when some panel is on screen, whichever panel that is.
   */
  lemma ActiveIffPanelShown(s: Launcher)
    requires Consistent(s)
    ensures !IsActive(s, 0)
    ensures IsActive(s, 1) <==> s.chatShown || s.todoShown
  {
  }

  /** Once a panel is open nothing closes it again, so the main toggle is gone for good. */
  lemma {:induction false} OpenStaysOpen(s: Launcher, events: seq<Event>)
    requires s.openPage != None
    ensures Run(s, events).openPage != None
    ensures !ToggleShown(Run(s, events))
    decreases |events|
  {
    if events != [] {
      OpenStaysOpen(Step(s, events[0]), events[1..]);
    }
  }
}

=== FILE: multiple_user_chat.dfy ===
/**
 The group chat page: a composer over the six-message seed thread, plus the
 "New Message" jump button. `hasNewMessage` is computed once on mount from the
 presence of a "New" separator, and is cleared when the view reaches the
 bottom or the button is clicked; `isAtBottom` follows the scroll position.
 */
module MultipleUserChat {
  import opened Wrappers
  import opened ChatThread
  import SenderKind
  import Composer

  /** How close (in pixels) to the end of the scroll area still counts as the bottom. */
  const BottomSlack: int := 100

  datatype Group = Group(chat: Composer.Composer, isAtBottom: bool, hasNewMessage: bool)

  /** `dataMessage.filter((msg) => msg.sender === "New")`, of which only the length is used. */
  function NewMarkers(t: Thread): (n: nat)
    ensures n > 0 <==> exists i :: 0 <= i < |t| && t[i].sender == SenderKind.NewSender
  {
    if t == [] then 0
    else (if t[0].sender == SenderKind.NewSender then 1 else 0) + NewMarkers(t[1..])
  }

  /** The mount effect: the flag is raised exactly when the thread has a new-message separator. */
  function HasNewOnMount(t: Thread): (b: bool)
    ensures b <==> exists m :: m in t && m.sender == SenderKind.NewSender
  {
    NewMarkers(t) > 0
  }

  /**
   State after mount: the seed thread, nothing typed, not at the bottom, and
   the flag up exactly when the seed holds a "New" separator.
   */
  function Initial(): (g: Group)
    ensures g.chat.thread == Seed() && g.chat.input == "" && g.chat.error == ""
    ensures !g.chat.editing && g.chat.editId.None?
    ensures !g.isAtBottom
    ensures g.hasNewMessage <==> exists m :: m in Seed() && m.sender == SenderKind.NewSender
    ensures Valid(g)
  {
    var t := Seed();
    Group(Composer.Composer(t, "", "", false, None), false, HasNewOnMount(t))
  }

  /** `scrollTop + clientHeight >= scrollHeight - 100` */
  function AtBottom(scrollTop: int, clientHeight: int, scrollHeight: int): (b: bool)
    ensures b <==> scrollHeight - (scrollTop + clientHeight) <= BottomSlack
  {
    scrollTop + clientHeight >= scrollHeight - BottomSlack
  }

  /**
   A scroll event updates `isAtBottom`; the effect watching it clears
   `hasNewMessage` when it has just turned true.
   */
  function Scrolled(g: Group, scrollTop: int, clientHeight: int, scrollHeight: int): (r: Group)
    ensures r.isAtBottom == AtBottom(scrollTop, clientHeight, scrollHeight)
    ensures r.isAtBottom && !g.isAtBottom ==> !r.hasNewMessage
    ensures !(r.isAtBottom && !g.isAtBottom) ==> r.hasNewMessage == g.hasNewMessage
    ensures r.chat == g.chat
  {
    var bottom := AtBottom(scrollTop, clientHeight, scrollHeight);
    var hasNew := if bottom && !g.isAtBottom then false else g.hasNewMessage;
    Group(g.chat, bottom, hasNew)
  }

  /** `hasNewMessage && !isAtBottom` */
  predicate ShowsNewMessageButton(g: Group) {
    g.hasNewMessage && !g.isAtBottom
  }

  /** Clicking the jump button clears the flag, which hides the button. */
  function ClickNewMessageButton(g: Group): (r: Group)
    ensures !r.hasNewMessage && !ShowsNewMessageButton(r)
    ensures r.chat == g.chat && r.isAtBottom == g.isAtBottom
  {
    g.(hasNewMessage := false)
  }

  /** The flag is never up while the view sits at the bottom, and edit mode always has an id. */
  predicate Valid(g: Group) {
    && Composer.Valid(g.chat)
    && (g.isAtBottom ==> !g.hasNewMessage)
  }

  datatype Event =
    | Chat(e: Composer.Event)
    | Scroll(scrollTop: int, clientHeight: int, scrollHeight: int)
    | NewMessageButtonClicked

  /** One event; a click on a button that is not shown cannot happen and changes nothing. */
  function Step(g: Group, e: Event): Group {
    match e
    case Chat(ce) => g.(chat := Composer.Step(g.chat, ce))
    case Scroll(top, client, height) => Scrolled(g, top, client, height)
    case NewMessageButtonClicked =>
      if ShowsNewMessageButton(g) then ClickNewMessageButton(g) else g
  }

  function Run(g: Group, events: seq<Event>): Group
    decreases |events|
  {
    if events == [] then g else Run(Step(g, events[0]), events[1..])
  }

  lemma StepKeepsValid(g: Group, e: Event)
    requires Valid(g)
    ensures Valid(Step(g, e))
  {
    if e.Chat? {
      Composer.StepKeepsValid(g.chat, e.e);
    }
  }

  /** The page opens with the jump button showing, since the seed thread has a "New" separator. */
  lemma InitialShowsButton()
    ensures Valid(Initial())
    ensures ShowsNewMessageButton(Initial())
  {
    assert Seed()[4] in Seed();
  }

  /** Once cleared, the new-message flag never comes back. */
  lemma {:induction false} FlagNeverReturns(g: Group, events: seq<Event>)
    requires !g.hasNewMessage
    ensures !Run(g, events).hasNewMessage
    decreases |events|
  {
    if events != [] {
      FlagNeverReturns(Step(g, events[0]), events[1..]);
    }
  }

  /** `StepKeepsValid` carried along an event sequence: the same induction as `Composer.RunKeepsValid`, over this page's steps. */
  lemma {:induction false} RunKeepsValid(g: Group, events: seq<Event>)
    requires Valid(g)
    ensures Valid(Run(g, events))
    decreases |events|
  {
    if events != [] {
      StepKeepsValid(g, events[0]);
      RunKeepsValid(Step(g, events[0]), events[1..]);
    }
  }

  /**
   Once the jump button is hidden in a valid state, whether by reaching the
   bottom or by a click, no later event brings it back.
   */
  lemma {:induction false} ButtonNeverReturns(g: Group, events: seq<Event>)
    requires Valid(g) && !ShowsNewMessageButton(g)
    ensures !ShowsNewMessageButton(Run(g, events))
  {
    FlagNeverReturns(g, events);
  }

  /** Running two event sequences in a row is running their concatenation. */
  lemma {:induction false} RunConcat(g: Group, a: seq<Event>, b: seq<Event>)
    ensures Run(g, a + b) == Run(Run(g, a), b)
    decreases |a|
  {
    if a == [] {
      assert a + b == b;
    } else {
      assert (a + b)[0] == a[0];
      assert (a + b)[1..] == a[1..] + b;
      RunConcat(Step(g, a[0]), a[1..], b);
    }
  }

  /** From a valid state, a jump button that shows after all the events also showed after each prefix of them. */
  lemma {:induction false} ShownAfterPrefix(g: Group, events: seq<Event>, k: int)
    requires Valid(g) && 0 <= k <= |events|
    requires ShowsNewMessageButton(Run(g, events))
    ensures ShowsNewMessageButton(Run(g, events[..k]))
  {
    var mid := Run(g, events[..k]);
    RunKeepsValid(g, events[..k]);
    assert events[..k] + events[k..] == events;
    RunConcat(g, events[..k], events[k..]);
    if !ShowsNewMessageButton(mid) {
      ButtonNeverReturns(mid, events[k..]);
    }
  }

  /**
   From the page as mounted, every reachable state keeps the flag down at the
   bottom and edit mode tied to an id; and a jump button that shows now has
   shown after every prefix of the events, i.e. without a break since mount.
   */
  lemma ReachableValid(events: seq<Event>)
    ensures Valid(Run(Initial(), events))
    ensures forall k :: 0 <= k <= |events| && ShowsNewMessageButton(Run(Initial(), events)) ==>
              ShowsNewMessageButton(Run(Initial(), events[..k]))
  {
    var g := Initial();
    RunKeepsValid(g, events);
    forall k | 0 <= k <= |events| && ShowsNewMessageButton(Run(g, events))
      ensures ShowsNewMessageButton(Run(g, events[..k]))
    {
      ShownAfterPrefix(g, events, k);
    }
  }

  /**
   Ids are not unique on this page: deleting message 1 of the seed and then
   sending gives the new message id 6, which message 6 already has.
   */
  lemma SeedDeleteThenSendDuplicates(value: string, time: string)
    ensures !UniqueIds(Append(Delete(Seed(), 1), value, time))
  {
    DeleteThenAppendDuplicatesId(Seed(), value, time);
  }
}

=== FILE: sender_kind.dfy ===
/**
 How a chat page decides what to draw for a message: by comparing its sender
 string with the reserved names "You", "Date" and "New". Here the comparison is
 resolved once into a tagged variant.
 */
module SenderKind {
  import ChatThread

  const DateSender: string := "Date"
  const NewSender: string := "New"

  /** What a message renders as: own bubble, date separator, new-message separator, or another sender's bubble. */
  datatype Kind = Own | DateSeparator | NewSeparator | Other(name: string)

  predicate IsReserved(sender: string) {
    sender == ChatThread.OwnSender || sender == DateSender || sender == NewSender
  }

  /** The sender string a kind stands for. */
  function SenderOf(k: Kind): string {
    match k
    case Own => ChatThread.OwnSender
    case DateSeparator => DateSender
    case NewSeparator => NewSender
    case Other(name) => name
  }

  /** A kind that some sender string produces: `Other` never carries a reserved name. */
  predicate WellFormed(k: Kind) {
    k.Other? ==> !IsReserved(k.name)
  }

  /** The four-way dispatch of the group-chat and inbox pages. */
  function Classify(sender: string): (k: Kind)
    ensures WellFormed(k)
    ensures SenderOf(k) == sender
  {
    if sender == ChatThread.OwnSender then Own
    else if sender == DateSender then DateSeparator
    else if sender == NewSender then NewSeparator
    else Other(sender)
  }

  /** Classification loses nothing: every well-formed kind is recovered from its sender string. */
  lemma ClassifySenderOf(k: Kind)
    requires WellFormed(k)
    ensures Classify(SenderOf(k)) == k
  {
  }

  /** The four cases split the sender strings: each reserved name has its own case, the rest fall to Other. */
  lemma ClassifyCases(sender: string)
    ensures Classify(sender) == Own <==> sender == ChatThread.OwnSender
    ensures Classify(sender) == DateSeparator <==> sender == DateSender
    ensures Classify(sender) == NewSeparator <==> sender == NewSender
    ensures Classify(sender).Other? <==> !IsReserved(sender)
  {
  }

  /** The support page only tells own messages apart; "Date" and "New" render as other senders there. */
  function SupportClassify(sender: string): (k: Kind)
    ensures k.Own? <==> Classify(sender).Own?
    ensures !k.Own? ==> k == Other(sender)
  {
    if sender == ChatThread.OwnSender then Own else Other(sender)
  }
}

=== FILE: support_chat.dfy ===
/**
 The support chat page: a composer over a thread that opens with a welcome
 message, plus the automatic support reply. Sending into a thread that held
 fewer than two messages schedules one reply and shows the "please wait"
 banner; the reply itself is a separate event that appends the support
 message to the thread as it is then and hides the banner.
 */
module SupportChat {
  import opened Wrappers
  import opened JsString
  import opened ChatThread
  import Composer

  const SupportSender: string := "FastVisa Support"
  const ReplyText: string := "What can I help you with?"
  const SupportTextColor: string := "text-primary-100"
  const SupportBgColor: string := "bg-[#F8F8F8]"
  const WelcomeText: string :=
    "Hey there. Welcome to your inbox! Contact us for more information and help about anything! We’ll send you a response as soon as possible."

  /** `waitSupport` is the banner flag; `pendingReplies` counts reply timers not yet fired. */
  datatype Support = Support(chat: Composer.Composer, waitSupport: bool, pendingReplies: nat)

  /** The page as mounted: only the support welcome message (id 1), nothing typed, no banner, no timer. */
  function Initial(): (s: Support)
    ensures |s.chat.thread| == 1 && s.chat.thread[0].id == 1
    ensures s.chat.thread[0].sender == SupportSender && s.chat.thread[0].text == WelcomeText
    ensures s.chat.input == "" && s.chat.error == "" && !s.chat.editing && s.chat.editId.None?
    ensures !s.waitSupport && s.pendingReplies == 0
    ensures Valid(s)
  {
    var welcome := Message(1, SupportSender, WelcomeText, "19:32", SupportTextColor, SupportBgColor);
    Support(Composer.Composer([welcome], "", "", false, None), false, 0)
  }

  /** The banner is only up while some reply is still due. */
  predicate Valid(s: Support) {
    && Composer.Valid(s.chat)
    && (s.waitSupport ==> s.pendingReplies > 0)
  }

  /**
   `addNewMessage` of the support page: the shared send, and on success a reply
   timer exactly when the thread had fewer than two messages before the append.
   */
  function AddMessage(s: Support, time: string): (r: Support)
    ensures r.chat == Composer.Send(s.chat, time)
    ensures IsBlank(s.chat.input) ==>
              r.waitSupport == s.waitSupport && r.pendingReplies == s.pendingReplies
    ensures !IsBlank(s.chat.input) ==>
              && (r.pendingReplies == s.pendingReplies + 1 <==> |s.chat.thread| < 2)
              && (r.pendingReplies == s.pendingReplies <==> |s.chat.thread| >= 2)
              && r.waitSupport == (|s.chat.thread| < 2)
  {
    var chat := Composer.Send(s.chat, time);
    if IsBlank(s.chat.input) then s.(chat := chat)
    else if |s.chat.thread| < 2 then Support(chat, true, s.pendingReplies + 1)
    else Support(chat, false, s.pendingReplies)
  }

  /** The support reply a fired timer appends; its id is the clock value `now`. */
  function ReplyMessage(now: int, time: string): Message {
    Message(now, SupportSender, ReplyText, time, SupportTextColor, SupportBgColor)
  }

  /** A reply timer fires: one support message is appended to the current thread and the banner goes away. */
  function Reply(s: Support, now: int, time: string): (r: Support)
    requires s.pendingReplies > 0
    ensures |r.chat.thread| == |s.chat.thread| + 1
    ensures r.chat.thread[..|s.chat.thread|] == s.chat.thread
    ensures r.chat.thread[|s.chat.thread|].sender == SupportSender
    ensures r.chat.thread[|s.chat.thread|].text == ReplyText
    ensures r.chat.thread[|s.chat.thread|].id == now
    ensures r.chat.thread[|s.chat.thread|].time == time
    ensures r.chat.thread[|s.chat.thread|].textColor == SupportTextColor
    ensures r.chat.thread[|s.chat.thread|].bgColor == SupportBgColor
    ensures r.chat.input == s.chat.input && r.chat.editing == s.chat.editing && r.chat.editId == s.chat.editId
    ensures r.chat.error == s.chat.error
    ensures !r.waitSupport && r.pendingReplies == s.pendingReplies - 1
  {
    Support(s.chat.(thread := s.chat.thread + [ReplyMessage(now, time)]), false, s.pendingReplies - 1)
  }

  /** The Send button and the Enter key: update in edit mode, add (and maybe schedule a reply) otherwise. */
  function Submit(s: Support, time: string): (r: Support)
    ensures s.chat.editing ==>
              r.chat == Composer.CommitEdit(s.chat, time)
              && r.waitSupport == s.waitSupport && r.pendingReplies == s.pendingReplies
    ensures !s.chat.editing ==> r == AddMessage(s, time)
  {
    if s.chat.editing then s.(chat := Composer.CommitEdit(s.chat, time)) else AddMessage(s, time)
  }

  datatype Event =
    | Typed(value: string)
    | Submitted(time: string)
    | EditClicked(m: Message)
    | DeleteClicked(id: int)
    | ReplyFired(now: int, time: string)

  /** One event; a reply event with no timer pending cannot happen and changes nothing. */
  function Step(s: Support, e: Event): Support {
    match e
    case Typed(value) => s.(chat := Composer.Type(s.chat, value))
    case Submitted(time) => Submit(s, time)
    case EditClicked(m) => s.(chat := Composer.BeginEdit(s.chat, m))
    case DeleteClicked(id) => s.(chat := Composer.Remove(s.chat, id))
    case ReplyFired(now, time) => if s.pendingReplies > 0 then Reply(s, now, time) else s
  }

  function Run(s: Support, events: seq<Event>): Support
    decreases |events|
  {
    if events == [] then s else Run(Step(s, events[0]), events[1..])
  }

  lemma StepKeepsValid(s: Support, e: Event)
    requires Valid(s)
    ensures Valid(Step(s, e))
  {
  }

  /** In every reachable state the banner implies a pending reply and edit mode implies an id. */
  lemma {:induction false} ReachableValid(events: seq<Event>)
    ensures Valid(Run(Initial(), events))
  {
    RunKeepsValid(Initial(), events);
  }

  /** `StepKeepsValid` carried along an event sequence: the same induction as `Composer.RunKeepsValid`, over this page's steps. */
  lemma {:induction false} RunKeepsValid(s: Support, events: seq<Event>)
    requires Valid(s)
    ensures Valid(Run(s, events))
    decreases |events|
  {
    if events != [] {
      StepKeepsValid(s, events[0]);
      RunKeepsValid(Step(s, events[0]), events[1..]);
    }
  }

  /** Running two event sequences in a row is running their concatenation. */
  lemma {:induction false} RunConcat(s: Support, a: seq<Event>, b: seq<Event>)
    ensures Run(s, a + b) == Run(Run(s, a), b)
    decreases |a|
  {
    if a == [] {
      assert a + b == b;
    } else {
      assert (a + b)[0] == a[0];
      assert (a + b)[1..] == a[1..] + b;
      RunConcat(Step(s, a[0]), a[1..], b);
    }
  }

  /**
   Typing a non-blank message and sending it outside edit mode appends one
   message; a reply is scheduled and the banner shown iff the thread held fewer
   than two messages.
   */
  lemma TypeThenSend(s: Support, v: string, t: string)
    requires !IsBlank(v) && !s.chat.editing
    ensures var r := Run(s, [Typed(v), Submitted(t)]);
            && |r.chat.thread| == |s.chat.thread| + 1 && !r.chat.editing
            && r.waitSupport == (|s.chat.thread| < 2)
            && r.pendingReplies == s.pendingReplies + (if |s.chat.thread| < 2 then 1 else 0)
  {
    var s1 := Step(s, Typed(v));
    assert s1.chat.input == v && s1.chat.thread == s.chat.thread && !s1.chat.editing;
    assert s1.pendingReplies == s.pendingReplies;
    assert Run(s, [Typed(v), Submitted(t)]) == Run(s1, [Submitted(t)]);
  }

  /** A fired reply appends the support message to the thread reached by `events` and consumes one timer. */
  lemma ReplyLands(s: Support, events: seq<Event>, now: int, t: string)
    requires Run(s, events).pendingReplies > 0
    ensures var before := Run(s, events);
            var r := Run(s, events + [ReplyFired(now, t)]);
            r.pendingReplies == before.pendingReplies - 1 && r.chat.thread == before.chat.thread + [ReplyMessage(now, t)]
  {
    RunSnoc(s, events, ReplyFired(now, t));
  }

  /** The two-send scenario from any page holding one message, not editing and with no reply due. */
  lemma SecondSendFrom(s0: Support, v: string, w: string, t1: string, t2: string, now: int, t3: string)
    requires !IsBlank(v) && !IsBlank(w)
    requires |s0.chat.thread| == 1 && !s0.chat.editing && s0.pendingReplies == 0
    ensures var s := Run(s0, [Typed(v), Submitted(t1), Typed(w), Submitted(t2)]);
            !s.waitSupport && s.pendingReplies == 1 && |s.chat.thread| == 3
    ensures var s := Run(s0, [Typed(v), Submitted(t1), Typed(w), Submitted(t2), ReplyFired(now, t3)]);
            s.pendingReplies == 0 && |s.chat.thread| == 4 && s.chat.thread[3] == ReplyMessage(now, t3)
  {
    var first := [Typed(v), Submitted(t1)];
    var second := [Typed(w), Submitted(t2)];
    var both := first + second;
    TypeThenSend(s0, v, t1);
    TypeThenSend(Run(s0, first), w, t2);
    RunConcat(s0, first, second);
    assert both == [Typed(v), Submitted(t1), Typed(w), Submitted(t2)];
    ReplyLands(s0, both, now, t3);
    assert both + [ReplyFired(now, t3)] == [Typed(v), Submitted(t1), Typed(w), Submitted(t2), ReplyFired(now, t3)];
  }

  /** Running one more event is one more step. */
  lemma {:induction false} RunSnoc(s: Support, events: seq<Event>, e: Event)
    ensures Run(s, events + [e]) == Step(Run(s, events), e)
    decreases |events|
  {
    if events != [] {
      assert (events + [e])[1..] == events[1..] + [e];
      RunSnoc(Step(s, events[0]), events[1..], e);
    }
  }

  /** The first message sent into the fresh support thread schedules a reply and shows the banner. */
  lemma FirstSendSchedulesReply(value: string, time: string)
    requires !IsBlank(value)
    ensures var s := Run(Initial(), [Typed(value), Submitted(time)]);
            s.waitSupport && s.pendingReplies == 1 && |s.chat.thread| == 2
  {
    TypeThenSend(Initial(), value, time);
  }

  /**
   A second message sent before the reply arrives schedules nothing more and
   hides the banner while the first reply is still due; the reply then lands
   after both own messages.
   */
  lemma SecondSendHidesBannerEarly(v: string, w: string, t1: string, t2: string, now: int, t3: string)
    requires !IsBlank(v) && !IsBlank(w)
    ensures var s := Run(Initial(), [Typed(v), Submitted(t1), Typed(w), Submitted(t2)]);
            !s.waitSupport && s.pendingReplies == 1 && |s.chat.thread| == 3
    ensures var s := Run(Initial(), [Typed(v), Submitted(t1), Typed(w), Submitted(t2), ReplyFired(now, t3)]);
            s.pendingReplies == 0 && |s.chat.thread| == 4 && s.chat.thread[3] == ReplyMessage(now, t3)
  {
    SecondSendFrom(Initial(), v, w, t1, t2, now, t3);
  }
}

=== FILE: text_config.dfy ===
/**
 The `truncate` helper used to shorten message previews: text longer than the
 limit is cut and followed by an ellipsis, shorter text is kept, and the empty
 string, being falsy in JavaScript, makes the helper fall off its end and
 return `undefined` (modelled as None).
 */
module TextConfig {
  import opened Wrappers

  const Ellipsis: string := "..."

  /** The end index `substring(0, max)` actually uses: JavaScript clamps it into [0, len]. */
  function SubstringEnd(max: int, len: nat): (e: nat)
    ensures e <= len
    ensures 0 <= max <= len ==> e == max
    ensures max < 0 ==> e == 0
    ensures max > len ==> e == len
  {
    if max < 0 then 0 else if max > len then len else max
  }

  /** `truncate(text, max)` */
  function Truncate(text: string, max: int): (r: Option<string>)
    ensures r.None? <==> text == []
    ensures 0 < |text| <= max ==> r == Some(text)
    ensures |text| > 0 && |text| > max ==>
              && r.Some?
              && |r.value| == SubstringEnd(max, |text|) + |Ellipsis|
              && r.value[..|r.value| - 3] == text[..|r.value| - 3]
              && r.value[|r.value| - 3..] == Ellipsis
    ensures max >= 0 && r.Some? ==> |r.value| <= max + |Ellipsis|
  {
    if text != [] then
      if |text| > max then Some(text[..SubstringEnd(max, |text|)] + Ellipsis)
      else Some(text)
    else None
  }

  /**
   `truncate` hands its input back unchanged exactly when the input is non-empty
   and within the limit, or when the input already is its own truncation: the
   first `max` characters (none when `max` is negative) followed by "...".
   */
  lemma TruncateFixpointIff(text: string, max: int)
    ensures Truncate(text, max) == Some(text) <==>
              || 0 < |text| <= max
              || (var keep := if max < 0 then 0 else max;
                  |text| == keep + 3 && text[keep..] == Ellipsis)
  {
    var keep := if max < 0 then 0 else max;
    if |text| == keep + 3 && text[keep..] == Ellipsis {
      assert text == text[..keep] + Ellipsis;
    }
  }

  /** The quirk in a concrete case: a five-character text with limit two comes back whole. */
  lemma TruncateKeepsOwnTruncation()
    ensures Truncate("ab...", 2) == Some("ab...")
  {
    assert "ab..."[..2] + Ellipsis == "ab...";
  }
}

=== FILE: todo_item.dfy ===
/**
 One row of the to-do list. The row keeps local copies of the title and the
 description while they are edited, and each user action yields at most one
 updated `Todo` for the `updateTodo` callback. The debounced commits spread the
 to-do captured when their field last changed, not the one stored when they
 fire. Dates are opaque ISO strings, and the day count and the "is in the
 future" test come from a date library and are inputs here.
 */
module TodoItem {
  import opened Wrappers

  datatype Todo = Todo(id: string, title: string, dueDate: string, description: string, completed: bool)

  /**
   The row's local state: the stored to-do it was last rendered with, the title
   and description being edited, and whether the date picker is open. Each
   debounce hook has at most one live timer; `titlePending` says whether the
   title timer is still to fire, and `titleBase` is the to-do its callback
   closed over, from the render in which the title last changed (likewise for
   the description).
   */
  datatype Row = Row(todo: Todo, title: string, desc: string, pickerOpen: bool,
                     titleBase: Todo, titlePending: bool, descBase: Todo, descPending: bool)

  /** The bases are earlier renders of the same row, so they carry its id. */
  predicate Keyed(row: Row) {
    row.titleBase.id == row.todo.id && row.descBase.id == row.todo.id
  }

  /**
   The first render. The hooks also arm a timer on mount, but it compares the
   title with the same to-do's title and so can never update; it is left out
   as no pending timer.
   */
  function Mount(todo: Todo): (r: Row)
    ensures r.todo == todo && r.title == todo.title && r.desc == todo.description && !r.pickerOpen
    ensures !r.titlePending && !r.descPending && Keyed(r)
  {
    Row(todo, todo.title, todo.description, false, todo, false, todo, false)
  }

  /** The parent renders the row again with a new stored to-do; local state and the live timers are kept. */
  function Receive(row: Row, todo: Todo): Row {
    row.(todo := todo)
  }

  /** Title and description inputs are disabled once the to-do is completed. */
  predicate Editable(todo: Todo) {
    !todo.completed
  }

  /**
   Typing in the title input; a disabled input takes no keystrokes. A changed
   title re-arms the title timer over the to-do of this render; an unchanged
   one leaves the state, and so the timer, as it was.
   */
  function EditTitle(row: Row, value: string): (r: Row)
    ensures Editable(row.todo) && value != row.title ==>
              r == row.(title := value, titleBase := row.todo, titlePending := true)
    ensures !Editable(row.todo) || value == row.title ==> r == row
  {
    if Editable(row.todo) && value != row.title then
      row.(title := value, titleBase := row.todo, titlePending := true)
    else row
  }

  /** Typing in the description box, with the same timer behaviour as the title. */
  function EditDesc(row: Row, value: string): (r: Row)
    ensures Editable(row.todo) && value != row.desc ==>
              r == row.(desc := value, descBase := row.todo, descPending := true)
    ensures !Editable(row.todo) || value == row.desc ==> r == row
  {
    if Editable(row.todo) && value != row.desc then
      row.(desc := value, descBase := row.todo, descPending := true)
    else row
  }

  /** The debounced title commit: an update only when the edited title differs, replacing the title alone. */
  function CommitTitle(todo: Todo, title: string): (u: Option<Todo>)
    ensures u.Some? <==> title != todo.title
    ensures u.Some? ==>
              && u.value.title == title
              && u.value.id == todo.id && u.value.dueDate == todo.dueDate
              && u.value.description == todo.description && u.value.completed == todo.completed
  {
    if title != todo.title then Some(todo.(title := title)) else None
  }

  /** The debounced description commit: an update only when the text differs, replacing the description alone. */
  function CommitDescription(todo: Todo, desc: string): (u: Option<Todo>)
    ensures u.Some? <==> desc != todo.description
    ensures u.Some? ==>
              && u.value.description == desc
              && u.value.id == todo.id && u.value.title == todo.title
              && u.value.dueDate == todo.dueDate && u.value.completed == todo.completed
  {
    if desc != todo.description then Some(todo.(description := desc)) else None
  }

  /** Once a commit has been stored, the same edit commits nothing again. */
  lemma CommitsSettle(todo: Todo, title: string, desc: string)
    ensures CommitTitle(todo, title).Some? ==> CommitTitle(CommitTitle(todo, title).value, title).None?
    ensures CommitDescription(todo, desc).Some? ==>
              CommitDescription(CommitDescription(todo, desc).value, desc).None?
  {
  }

  /** What the checkbox reports: Radix-style `checked` is true, false or "indeterminate". */
  datatype CheckedState = Checked | Unchecked | Indeterminate

  /** `!!checked`: only `false` is falsy, so "indeterminate" counts as done. */
  function Truthy(c: CheckedState): bool {
    c != Unchecked
  }

  /** The checkbox: `completed` becomes the truthiness of `checked`, nothing else changes. */
  function Check(todo: Todo, checked: CheckedState): (u: Todo)
    ensures u.completed <==> checked != Unchecked
    ensures u.id == todo.id && u.title == todo.title && u.dueDate == todo.dueDate
    ensures u.description == todo.description
  {
    todo.(completed := Truthy(checked))
  }

  /**
   Ticking the box locks the title and description inputs; clearing it unlocks
   them. The row keeps its local copies when the stored to-do comes back
   changed, so only the `todo` part of the row is replaced.
   */
  lemma CheckLocksEditing(row: Row, checked: CheckedState, value: string)
    ensures var r := Receive(row, Check(row.todo, checked));
            checked != Unchecked ==> EditTitle(r, value) == r && EditDesc(r, value) == r
    ensures var r := Receive(row, Check(row.todo, checked));
            checked == Unchecked ==> EditTitle(r, value).title == value && EditDesc(r, value).desc == value
  {
  }

  /**
   Picking in the date picker. The picker is disabled for a completed to-do:
   no day can be picked, so nothing happens. Otherwise a date gives an update
   changing only `dueDate` (to the ISO string of the date), no date gives no
   update, and the picker closes either way.
   */
  function SelectDate(row: Row, date: Option<string>): (r: (Row, Option<Todo>))
    ensures !Editable(row.todo) ==> r.0 == row && r.1.None?
    ensures Editable(row.todo) ==> !r.0.pickerOpen
    ensures r.0.todo == row.todo && r.0.title == row.title && r.0.desc == row.desc
    ensures r.1.Some? <==> Editable(row.todo) && date.Some?
    ensures r.1.Some? ==>
              && r.1.value.dueDate == date.value
              && r.1.value.id == row.todo.id && r.1.value.title == row.todo.title
              && r.1.value.description == row.todo.description
              && r.1.value.completed == row.todo.completed
  {
    if !Editable(row.todo) then (row, None)
    else
      var update := match date
        case Some(iso) => Some(row.todo.(dueDate := iso))
        case None => None;
      (row.(pickerOpen := false), update)
  }

  /** The fields of a to-do that an update can touch; the id never changes. */
  datatype Field = TitleField | DueDateField | DescriptionField | CompletedField

  /** `b` agrees with `a` on the id and on every field other than `f`. */
  predicate SameExcept(a: Todo, b: Todo, f: Field) {
    && a.id == b.id
    && (f != TitleField ==> a.title == b.title)
    && (f != DueDateField ==> a.dueDate == b.dueDate)
    && (f != DescriptionField ==> a.description == b.description)
    && (f != CompletedField ==> a.completed == b.completed)
  }

  /** How many of the four editable fields differ between `a` and `b`. */
  function ChangedFields(a: Todo, b: Todo): nat {
    (if a.title != b.title then 1 else 0) + (if a.dueDate != b.dueDate then 1 else 0)
    + (if a.description != b.description then 1 else 0) + (if a.completed != b.completed then 1 else 0)
  }

  /**
   What the user can do on a row. `TitleSettled` and `DescSettled` are the
   debounce timers firing; without a live timer they do nothing.
   */
  datatype Action =
    | TypeTitle(value: string)
    | TypeDesc(value: string)
    | TitleSettled
    | DescSettled
    | Tick(checked: CheckedState)
    | PickDate(date: Option<string>)
    | DeleteClicked

  /** What the row hands to its parent: nothing, a to-do for `updateTodo`, or an id for `deleteTodo`. */
  datatype Effect = NoChange | Updated(todo: Todo) | Deleted(id: string)

  /** The field an action may change, if any. */
  function Touches(a: Action): Option<Field> {
    match a
    case TitleSettled => Some(TitleField)
    case DescSettled => Some(DescriptionField)
    case Tick(_) => Some(CompletedField)
    case PickDate(_) => Some(DueDateField)
    case _ => None
  }

  function AsEffect(u: Option<Todo>): Effect {
    if u.Some? then Updated(u.value) else NoChange
  }

  /**
   One user action on the row, as the program does it: its new local state and
   what it hands to the parent. Typing hands over nothing. The checkbox and
   the picker hand over the stored to-do with their own field set. A firing
   timer hands over the to-do its callback captured, with the edited field
   replaced, so it differs from that captured to-do in exactly that field but
   may undo changes stored since. Delete hands over the row's own id.
   */
  function Act(row: Row, a: Action): (r: (Row, Effect))
    ensures r.0.todo == row.todo
    ensures Keyed(row) ==> Keyed(r.0)
    ensures r.1.Deleted? <==> a.DeleteClicked?
    ensures r.1.Deleted? ==> r.1.id == row.todo.id
    ensures r.1.Updated? ==> Touches(a).Some?
    ensures r.1.Updated? && Keyed(row) ==> r.1.todo.id == row.todo.id
    ensures r.1.Updated? && (a.Tick? || a.PickDate?) ==>
              SameExcept(row.todo, r.1.todo, Touches(a).value) && ChangedFields(row.todo, r.1.todo) <= 1
    ensures a.TitleSettled? && r.1.Updated? ==>
              && row.titlePending && r.1.todo.title == row.title
              && SameExcept(row.titleBase, r.1.todo, TitleField) && ChangedFields(row.titleBase, r.1.todo) == 1
    ensures a.DescSettled? && r.1.Updated? ==>
              && row.descPending && r.1.todo.description == row.desc
              && SameExcept(row.descBase, r.1.todo, DescriptionField) && ChangedFields(row.descBase, r.1.todo) == 1
    ensures a.TitleSettled? ==> !r.0.titlePending
    ensures a.DescSettled? ==> !r.0.descPending
    ensures !Editable(row.todo) && r.1.Updated? ==> a.Tick? || a.TitleSettled? || a.DescSettled?
  {
    match a
    case TypeTitle(v) => (EditTitle(row, v), NoChange)
    case TypeDesc(v) => (EditDesc(row, v), NoChange)
    case TitleSettled =>
      if row.titlePending then (row.(titlePending := false), AsEffect(CommitTitle(row.titleBase, row.title)))
      else (row, NoChange)
    case DescSettled =>
      if row.descPending then (row.(descPending := false), AsEffect(CommitDescription(row.descBase, row.desc)))
      else (row, NoChange)
    case Tick(c) => (row, Updated(Check(row.todo, c)))
    case PickDate(d) =>
      var (next, u) := SelectDate(row, d);
      (next, AsEffect(u))
    case DeleteClicked => (row, Deleted(row.todo.id))
  }

  /**
   The stale commit: type a new title into an open to-do, tick the box, and
   let the parent store the ticked to-do. When the title timer fires, it hands
   over the title change on top of the unticked to-do, so the tick is undone
   and the update differs from the stored to-do in two fields.
   */
  lemma StaleTitleCommitRevertsTick(t: Todo, v: string)
    requires !t.completed && v != t.title
    ensures var typed := Act(Mount(t), TypeTitle(v)).0;
            var ticked := Act(typed, Tick(Checked));
            var fired := Act(Receive(ticked.0, ticked.1.todo), TitleSettled);
            && ticked.1 == Updated(t.(completed := true))
            && fired.1 == Updated(t.(title := v))
            && ChangedFields(ticked.1.todo, fired.1.todo) == 2
  {
  }

  /**
   The commits as evidently intended: against the to-do stored when the timer
   fires. Every other action is as in `Act`.
   */
  function ActIntended(row: Row, a: Action): (r: (Row, Effect))
    ensures r.0.todo == row.todo
    ensures r.1.Deleted? <==> a.DeleteClicked?
    ensures r.1.Deleted? ==> r.1.id == row.todo.id
    ensures r.1.Updated? ==> Touches(a).Some? && SameExcept(row.todo, r.1.todo, Touches(a).value)
    ensures r.1.Updated? ==> ChangedFields(row.todo, r.1.todo) <= 1
    ensures r.1.Updated? && (a.TitleSettled? || a.DescSettled?) ==> ChangedFields(row.todo, r.1.todo) == 1
  {
    if a.TitleSettled? && row.titlePending then
      (row.(titlePending := false), AsEffect(CommitTitle(row.todo, row.title)))
    else if a.DescSettled? && row.descPending then
      (row.(descPending := false), AsEffect(CommitDescription(row.todo, row.desc)))
    else Act(row, a)
  }

  /** With the intended commit, the same sequence keeps the tick and adds the title. */
  lemma IntendedCommitKeepsTick(t: Todo, v: string)
    requires !t.completed && v != t.title
    ensures var typed := ActIntended(Mount(t), TypeTitle(v)).0;
            var ticked := ActIntended(typed, Tick(Checked));
            var fired := ActIntended(Receive(ticked.0, ticked.1.todo), TitleSettled);
            fired.1 == Updated(t.(completed := true, title := v))
  {
  }

  /** What the date library reports for a set due date against the current time. */
  datatype DueInfo = DueInfo(daysLeft: int, isFuture: bool)

  /** The "N Day(s) Left" badge. */
  datatype Badge = Badge(count: nat, unit: string)

  function Abs(x: int): nat {
    if x < 0 then -x else x
  }

  /**
   The badge: an empty `dueDate` is falsy, so there is then no day count and
   no future test and no badge. With a due date in the future, the badge shows
   the absolute day count, in the singular for at most one day.
   */
  function DaysLeftBadge(todo: Todo, info: DueInfo): (b: Option<Badge>)
    ensures b.Some? <==> todo.dueDate != "" && info.isFuture
    ensures b.Some? ==> b.value.count == Abs(info.daysLeft)
    ensures b.Some? ==> (b.value.unit == "Day" <==> b.value.count <= 1)
    ensures b.Some? ==> (b.value.unit == "Days" <==> b.value.count > 1)
  {
    if todo.dueDate != "" && info.isFuture then
      var n := Abs(info.daysLeft);
      Some(Badge(n, if n <= 1 then "Day" else "Days"))
    else None
  }

  /** Setting a date through the picker is what makes the badge possible. */
  lemma SelectedDateEnablesBadge(row: Row, iso: string, info: DueInfo)
    requires Editable(row.todo) && iso != "" && info.isFuture
    ensures DaysLeftBadge(SelectDate(row, Some(iso)).1.value, info).Some?
  {
  }
}

=== FILE: wrappers.dfy ===
/** Optional values: the model's stand-in for JavaScript's `null` and `undefined`. */
module Wrappers {

  datatype Option<+T> = None | Some(value: T)
}
